=== FILE: README.md ===
# TypeScript asset build helper — a Dafny model

This project models the build step of `TypeScriptAssetCode`, a deployment
helper for AWS Lambda code. An asset is declared for a source folder. When
the deployment binds it, `typeScriptBuild` runs. It skips folders already
built in this process. It compiles the folder into its `.deploy` sub-folder
and copies the configured extra files there. When `package.json` or
`package-lock.json` changed, it writes both files into `.deploy` and runs the
package installer there.

The repository holds two versions of the class. `lib/typescript-code.js` is
the compiled one. It takes options, creates `.deploy` itself, compiles from
the library's own folder and copies files. `src/typescript-code.ts` is older.
It has no options, compiles from the source folder and always runs
`npm install --production`. Both versions are one `Build.Plan` run by
`Build.BuildWith`. The two are `Build.BuildLib` and `Build.BuildSrc`.

The model is a pure, sequential state machine:

- `Build.State` is the session. `memo` is the module-level list of folders
  already built. `fs` is an abstract file map (`FileSystem.FileMap`): a path
  is missing, a file with text, or a folder.
- `Build.Env` carries what the build consults but does not decide:
  - the library's own folder (`__dirname`);
  - the outcomes of the two child processes (`Steps.Process`): a launch
    error, or an exit with a status (`null` when a signal ended it) and the
    files the process wrote;
  - what writing a `null` lock file does.
- A build returns a `Build.Run`. It holds the new state, the ordered
  effects attempted (`Steps.Effect`: folder creation, process launch,
  `mkdirp`, copy, write) and a pass or fail outcome with the thrown error.

Modules: `Wrappers` (Option, Result), `Paths`, `Decimal` (how JavaScript
renders the status in the error message), `FileSystem`, `Steps`, `Options`,
`Copier` (the copy loop), `Packages` (change detector and installer step),
`Build`, `BuildProperties`.

Behaviour of the code that the model keeps, although a reader might expect
otherwise:

- Both versions add the folder to the memo *before* compiling. A build
  whose compiler failed is therefore not retried in the same process
  (`BuildProperties.FailedCompileNotRetried`).
- An installer failure raises the same message as a compiler failure,
  `'TypeScript compiler error: ' + status`. The message names the status but
  not the phase (`Steps.InstallerFailureReadsAsCompilerFailure`).
- A missing source `package-lock.json` does not remove the deploy copy. The
  code writes `null` into it, and the effect depends on the Node version.
- Every error from creating `.deploy` is ignored, not only "already exists".

## Model

| member | source | states |
|---|---|---|
| Options.Merge | lib/typescript-code.js:34-39 | Each option the caller gives wins over the default and each option left out keeps it. No options at all gives `npm`, `['install','--production']` and no copies |
| Options.MergeEmptyIsDefaults | lib/typescript-code.js:16-20 | Passing no options and passing an empty object both give exactly the default options |
| Options.MergeAllKeysKeepsThem | lib/typescript-code.js:39 | Options that give every key are taken over unchanged, so the merge is shallow and right-biased |
| Build.NewAsset | lib/typescript-code.js:25-40 | The asset remembers its source folder. It deploys a `.deploy` folder that is never the source folder. Its options are the merge over the defaults |
| Paths.DeployPath | src/typescript-code.ts:24-29 | The deploy path lies inside the source folder, after a separator, and differs from the remembered source path |
| Paths.JoinInjective | lib/typescript-code.js:71-72 | Two relative paths joined onto the same folder give the same key only when they are equal |
| Paths.Parent | lib/typescript-code.js:73-74 | `path.parse(p).dir`: the folder is the root `/`, the empty path (always for a path without separators), or a proper prefix that ends just before a separator |
| Paths.ParentIgnoresTrailingSeparator | lib/typescript-code.js:73-74 | A trailing separator does not change the folder of a non-empty path, so `d/c/` has the folder `d` |
| Paths.ParentExamples | lib/typescript-code.js:73-74 | `d/c/` has the folder `d`, `/a` has the root `/` and `a` has the empty folder |
| Paths.ParentOfJoin | lib/typescript-code.js:72-74 | For a non-empty folder and a non-empty target name without separators, the folder `mkdirp` creates is exactly the folder the target was joined onto |
| Build.BuildWith | lib/typescript-code.js:45-110 | A folder already in the memo makes the build a no-op: no effect, same state, success. Otherwise the folder is appended to the memo whatever the outcome, and the compiler launch follows the deploy folder attempt |
| Build.BuildLib | lib/typescript-code.js:45-62 | Compiled version: memo no-op, and the memo only grows and always holds the folder afterwards. `.deploy` creation is attempted first and the compiler (`npx tsc --project src --outDir deploy` from the library folder) always comes next, so a failed mkdir never aborts |
| Build.BuildSrc | src/typescript-code.ts:36-47 | Older version: the same memo behaviour, no deploy folder creation, and the first launch is `npx tsc --outDir deploy` from the source folder |
| Build.AfterCompile | lib/typescript-code.js:70-110 | The steps after a good compile (copy loop, manifest reads, installer step) never launch the compiler and launch the installer at most once |
| Build.LibPlan | lib/typescript-code.js:59-62 | No contract of its own: the compiled version's compiler invocation, configured installer invocation (lines 100-103) and copy list, whose use is stated by `Build.BuildLib`, `BuildProperties.CompileFailureAborts` and `BuildProperties.InstallDecision` |
| Build.SrcPlan | src/typescript-code.ts:44-47 | No contract of its own: the older version's compiler invocation, fixed installer invocation (lines 82-85) and empty copy list, whose use is stated by `Build.BuildSrc`, `BuildProperties.SrcInstallsFixedCommand` and `BuildProperties.SrcAgreesWithLibDefaults` |
| Build.Bind | lib/typescript-code.js:41-44 | `bind` builds first. It yields the deploy folder exactly when the build did not throw, and the folder is in the memo afterwards |
| BuildProperties.CompileFailureAborts | lib/typescript-code.js:59-68 | A launch error is thrown on unchanged. Any other status raises a status error. Nothing follows the compiler launch: no copy, no write, no installer. Files change only by the deploy folder and the compiler's own output |
| BuildProperties.SrcCompileFailureAborts | src/typescript-code.ts:43-53 | In the older version a failing compiler ends the build right after its only launch, before any manifest is read or written |
| BuildProperties.FailedCompileNotRetried | src/typescript-code.ts:37-53 | After a failed compile, another build of the same folder in the same session is a no-op, even with another asset and a compiler that would now succeed |
| BuildProperties.InstallDecision | lib/typescript-code.js:88-110 | After a good compile, copies and reads, the trace is mkdir, compile, the copy list in order, then the installer step. The installer runs iff the change predicate holds and both manifest writes succeed. When the predicate is false nothing is written |
| BuildProperties.SrcInstallsFixedCommand | src/typescript-code.ts:64-92 | In the older version the installer runs iff the predicate holds and both writes succeed. It is then always `npm install --production` in the deploy folder, right after writing the lock file and `package.json` |
| BuildProperties.CopyFailureAborts | lib/typescript-code.js:70-76 | A failing copy loop ends the build with the loop's thrown error. The trace stops inside the copy list, the files are those the loop left, and no manifest is read or written and no installer launched |
| BuildProperties.ReadErrorAborts | lib/typescript-code.js:77-94 | After a good compile and copy, a manifest that is a folder ends the build with EISDIR. The files are those the copy loop left, nothing is written and no installer is launched |
| BuildProperties.SrcManifestReadErrorAborts | src/typescript-code.ts:55-72 | A manifest read that fails for a reason other than a missing file ends the build with that error. Nothing is written and no installer runs |
| BuildProperties.LaunchesAtMostOnce | lib/typescript-code.js:45-110 | One build launches the compiler once for a new folder and never for a remembered one, and launches the installer at most once |
| BuildProperties.RepeatedBindBuildsOnce | lib/typescript-code.js:41-50 | Two binds of assets for the same folder, with any options, launch the compiler and the installer at most once each in total. The second bind changes nothing |
| BuildProperties.SrcAgreesWithLibDefaults | src/typescript-code.ts:36-93 | With `.deploy` present, the older version leaves the same files, memo and outcome as the compiled one with default options. Its trace differs only by the mkdir and the compiler invocation |
| FileSystem.ReadFile | lib/typescript-code.js:79 | Reading succeeds exactly on a file and gives its text |
| FileSystem.ReadFileOrNull | lib/typescript-code.js:77-87 | `null` comes back exactly when the file is missing (ENOENT). Any other read error is thrown on unchanged, and a file gives its text |
| FileSystem.MkdirSync | lib/typescript-code.js:52-57 | Creating the deploy folder fails with EEXIST exactly when something is already there. Otherwise it adds only that folder, and every path reads as the same file or as no file as before |
| Build.PreparedFs | lib/typescript-code.js:52-57 | Whatever `mkdirSync` reports, the build goes on: the deploy path is present afterwards (a new folder when nothing was there), no other entry appears, and no file's content changes |
| FileSystem.EnsureDir | lib/typescript-code.js:74 | `mkdirp` accepts an existing folder, creates a missing one and fails when a file is in the way. It never changes what any file reads |
| FileSystem.CopyFile | lib/typescript-code.js:75 | A copy succeeds exactly when the source is a file and the target is neither an existing folder nor written with a trailing separator. The target then reads as the source and nothing else changes |
| FileSystem.WriteFile | lib/typescript-code.js:98 | A write succeeds unless a folder is in the way. Reading back gives the written text and other entries keep their values |
| FileSystem.WriteData | lib/typescript-code.js:97 | Non-null data is written and reads back unchanged. For `null`, the runtime's behaviour is a parameter: it either throws before touching the file or writes some text |
| FileSystem.ApplyWrites | lib/typescript-code.js:59-62 | A finished process's output files replace what was there, and every other entry is kept |
| Steps.ProcessOutcome | lib/typescript-code.js:63-68 | A launch error is thrown on, status 0 passes, and any other status (including `null`) raises a status error carrying it |
| Steps.RunProcess | lib/typescript-code.js:100-109 | Exactly one launch of the given phase and none of the other. Each file the finished process wrote reads back as written, and every other path reads as before, so a launch error changes no file |
| Steps.StatusMessage | lib/typescript-code.js:66-67 | The message starts with `TypeScript compiler error: `, and its rest is `null` exactly when the process gave no status |
| Decimal.IntToDecimal | lib/typescript-code.js:67 | The status text has a leading minus exactly for a negative status, no leading zero (only `0` itself starts with `0`), and its digits read back as the status's magnitude |
| Steps.StatusMessageIdentifiesStatus | lib/typescript-code.js:67 | `'TypeScript compiler error: ' + status` names the status: two messages are equal exactly when the statuses are |
| Steps.InstallerFailureReadsAsCompilerFailure | lib/typescript-code.js:107-108 | An installer failure raises the same status error as a compiler failure with that status |
| Copier.CopyAll | lib/typescript-code.js:70-76 | The loop never removes an entry, has at most two effects per list entry, and a failure is a thrown file-system error after at least one effect. Its order and contents are stated by the lemmas below |
| Copier.CopyTraceShape | lib/typescript-code.js:70-76 | The entries are processed in list order, each with exactly two effects. The target's folder is created right before the file is copied. No process is launched |
| Copier.CopyAllFollowsTrace | lib/typescript-code.js:70-76 | The loop's effects are a prefix of the all-succeed trace, and all of it on success. A failure ends the loop at the failing operation with the thrown error, so later entries are never attempted |
| Copier.CopyAllFrame | lib/typescript-code.js:70-76 | Whatever the outcome, the loop only adds entries and leaves every non-target entry as it was |
| Copier.CopiedTargetsAreFiles | lib/typescript-code.js:74-75 | After a successful loop every target is a file |
| Copier.CopiedParentsAreFolders | lib/typescript-code.js:73-75 | After a successful loop the folder of every copy target exists and is a folder, because `mkdirp` creates it before each copy and later steps never replace a folder |
| Copier.CopyFidelity | lib/typescript-code.js:70-76 | After a successful loop whose entries do not read each other's targets or share a target, each source was a file and each target holds that source's text from before the loop |
| Packages.ManifestPathsDistinct | lib/typescript-code.js:90-94 | The four manifest files (the pair in the source folder and the pair in `.deploy`) are four different files |
| Packages.ReadManifests | lib/typescript-code.js:89-94 | The four reads succeed unless one of the files is a folder, and then the read fails with EISDIR. On success they give the lock and `package.json` texts of the source and deploy folders, `null` for each missing file |
| Packages.ShouldInstall | lib/typescript-code.js:95 | Installing requires a non-empty `package.json`. A change of either file with such a `package.json` forces it. Equal pairs never install |
| Packages.ShouldInstallTruthTable | src/typescript-code.ts:74-75 | Missing or empty `package.json` never installs. A first build always installs. With `package.json` unchanged it installs iff the lock changed. A removed lock file counts as a change |
| Packages.WriteManifests | lib/typescript-code.js:97-98 | The lock file is written before `package.json`, and the step succeeds iff neither target is a folder and the lock is not `null` or the runtime accepts `null`. On success `package.json` reads back as the source's, and so does a non-null lock. Nothing else is touched |
| Packages.Sync | lib/typescript-code.js:95-110 | A false predicate writes and launches nothing. Otherwise the installer is launched once, after both writes, with the configured invocation, iff both writes succeeded. Its outcome ends the step and the compiler is never launched here |
| Packages.MissingLockFailsOnStrictRuntime | lib/typescript-code.js:95-97 | When `package.json` asks for an install but the source has no lock file, a runtime that throws ERR_INVALID_ARG_TYPE for `null` data ends the step at the lock write. No file changes and the installer is not launched |
| Packages.InstallerSeesNewManifests | src/typescript-code.ts:78-85 | When the installer is launched (lock present), the deploy folder reads back exactly the source's `package.json` and lock |
| Packages.NoReinstallAfterSync | lib/typescript-code.js:88-98 | After a successful installer step that left the four manifest files alone, an unchanged source no longer triggers an install |

## Left out

- Running the compiler and the installer, with their inherited output: each is an outcome given to the build (launch error, or status plus the files it wrote).
- Build.Bind: takes `super.bind` never to throw. The base class can throw when the asset is already bound to another stack or the deploy path is missing or not a folder. The model's `deployed` is present exactly when the build passed, which is what `typeScriptBuild` decides.
- The `@aws-cdk` base classes `Code`/`AssetCode` and `super.bind`: foreign library code. `Build.Bind` returns the deploy folder the base class was constructed with instead of a `CodeConfig`.
- `path.join` normalisation (`..`, `.`, repeated separators) and the internals of `mkdirp`: paths are abstract keys joined with one separator. `mkdirp` is a single step on the target's folder and does not create intermediate ancestors.
- Paths.Parent: follows `path.parse(p).dir` of POSIX Node on the key it is given, but keys are not normalised, so `d/c` and `d/c/` are two different entries of the file map. A copy target written with a trailing separator fails with EISDIR, and a copy source written that way fails with ENOENT where Node reports ENOTDIR for an existing file.
- Paths.ParentOfJoin: states nothing for an empty folder or target name, because `Paths.Join` does not normalise (`path.join('', 'a')` is `a`, the model's key is `/a`).
- Decimal.IntToDecimal: is JavaScript's number rendering only for magnitudes below 10^21, where JavaScript switches to exponent form. Exit statuses are far smaller.
- FileSystem.MkdirSync: fails only with EEXIST. Node's `mkdirSync` also fails with ENOENT when the source folder is missing and with ENOTDIR when it is a file; parent folders are not modelled, so creation always succeeds on an absent path.
- Build.PreparedFs: states that the deploy path is present after the attempt, which holds only because parent folders are not modelled; with a missing or non-folder source folder Node leaves `.deploy` absent.
- File permissions, symbolic links and missing parent folders for writes: the only non-ENOENT read error modelled is a folder where a file is expected (EISDIR).
- The content written for a `null` lock file: it depends on the Node runtime and is a parameter (`Build.Env.nullLockWrite`). No round trip is claimed for it.
- Options given explicitly as `undefined` or `null`: each option key is either present with a value or absent, so the `copyFiles || []` fallback has no separate case.
- `console.log` diagnostics (src/typescript-code.ts:76-77) and the type declarations in `lib/typescript-code.d.ts`.
- Concurrency: the code is single-threaded and synchronous, and the model is a sequential function of its state.

=== FILE: build.dfy ===
/** The build orchestrator (`typeScriptBuild`) of both versions of the asset
    class, as one pure step over a session state. The compiled `lib` version
    creates the deploy folder, compiles from the library's own folder, copies
    the configured files and installs with the configured command; the older
    `src` version compiles from the source folder, copies nothing and always
    runs `npm install --production`. Both are one `Plan` run by `BuildWith`. */
module Build {
  import opened Wrappers
  import opened Paths
  import opened FileSystem
  import opened Options
  import opened Steps
  import opened Copier
  import opened Packages

  /** The session: the list of source folders already built in this process
      (`typeScriptAlreadyBuilt`) and the file system. */
  datatype State = State(memo: seq<Path>, fs: FileMap)

  /** The session after a build, the effects attempted, and how it ended. */
  datatype Run = Run(state: State, trace: seq<Effect>, outcome: Outcome)

  /** What the build consults but does not decide: the folder the library is
      installed in (`__dirname`), the outcomes of the two child processes,
      and what writing a `null` lock file does. */
  datatype Env = Env(
    libraryDir: Path,
    compiler: Process,
    installer: Process,
    nullLockWrite: Result<string, ErrorCode>)

  /** A `TypeScriptAssetCode`: the remembered source folder and the
      effective options. */
  datatype Asset = Asset(sourcePath: Path, options: BuildOptions)

  /** The folder the asset hands to the deployment. */
  function DeployOf(a: Asset): Path {
    DeployPath(a.sourcePath)
  }

  /** `TypeScriptCode.asset(path, options)`: the asset remembers the source
      folder, deploys its `.deploy` sub-folder, and merges the options over
      the defaults. */
  function NewAsset(path: Path, user: Option<UserOptions>): (a: Asset)
    ensures a.sourcePath == path
    ensures DeployOf(a) != path
    ensures user.None? ==> a.options == Defaults
    ensures a.options == Merge(user)
  {
    Asset(path, Merge(user))
  }

  /** What differs between the two versions of `typeScriptBuild`. */
  datatype Plan = Plan(
    source: Path,
    deploy: Path,
    makeDeployDir: bool,
    compile: Invocation,
    copies: seq<CopyEntry>,
    install: Invocation)

  /** The compiled `lib` version. */
  function LibPlan(a: Asset, libraryDir: Path): Plan {
    Plan(a.sourcePath, DeployOf(a), true,
         Invocation("npx", ["tsc", "--project", a.sourcePath, "--outDir", DeployOf(a)], libraryDir),
         a.options.copyFiles,
         Invocation(a.options.npmInstallCommand, a.options.npmInstallArguments, DeployOf(a)))
  }

  /** The older `src` version. */
  function SrcPlan(path: Path): Plan {
    Plan(path, DeployPath(path), false,
         Invocation("npx", ["tsc", "--outDir", DeployPath(path)], path),
         [],
         Invocation("npm", ["install", "--production"], DeployPath(path)))
  }

  /** The file system after the attempt to create the deploy folder; a
      failure of that attempt is ignored. */
  function PreparedFs(fs: FileMap, p: Plan): (r: FileMap)
    ensures p.makeDeployDir ==> r.Keys == fs.Keys + {p.deploy} && (p.deploy !in fs ==> r[p.deploy] == Dir)
    ensures !p.makeDeployDir ==> r == fs
    ensures forall q :: Lookup(r, q) == Lookup(fs, q)
  {
    if p.makeDeployDir then
      match MkdirSync(fs, p.deploy)
      case Ok(fs') => fs'
      case Err(_) => fs
    else fs
  }

  function PrepareTrace(p: Plan): seq<Effect> {
    if p.makeDeployDir then [MakeDir(p.deploy)] else []
  }

  /** The compiler step on the prepared file system. */
  function CompileStep(st: State, p: Plan, env: Env): Step {
    RunProcess(PreparedFs(st.fs, p), Compiler, p.compile, env.compiler)
  }

  /** What follows a successful compile: the copy loop, the manifest reads
      and the installer step, each failure ending the build. */
  function AfterCompile(fs: FileMap, source: Path, deploy: Path, copies: seq<CopyEntry>,
                        install: Invocation, env: Env): (s: Step)
    ensures CountLaunches(s.trace, Compiler) == 0
    ensures CountLaunches(s.trace, Installer) <= 1
  {
    var cp := CopyAll(fs, source, deploy, copies);
    CopyAllFollowsTrace(fs, source, deploy, copies);
    NoLaunchesCountZero(cp.trace, Compiler);
    NoLaunchesCountZero(cp.trace, Installer);
    if cp.outcome.Fail? then cp
    else
      match ReadManifests(cp.fs, source, deploy)
      case Err(e) => Step(cp.fs, cp.trace, Fail(Thrown(e)))
      case Ok(m) =>
        var s := Sync(cp.fs, m, deploy, install, env.nullLockWrite, env.installer);
        CountLaunchesAppend(cp.trace, s.trace, Compiler);
        CountLaunchesAppend(cp.trace, s.trace, Installer);
        Step(s.fs, cp.trace + s.trace, s.outcome)
  }

  /** `typeScriptBuild`: skip a folder already in the memo; otherwise record
      it first, then create the deploy folder, compile, copy, and run the
      installer step, each failure ending the build. */
  function BuildWith(st: State, p: Plan, env: Env): (r: Run)
    ensures p.source in st.memo ==> r == Run(st, [], Pass)
    ensures p.source !in st.memo ==> r.state.memo == st.memo + [p.source]
    ensures p.source !in st.memo ==>
      && |r.trace| > |PrepareTrace(p)|
      && r.trace[..|PrepareTrace(p)| + 1] == PrepareTrace(p) + [Spawn(Compiler, p.compile)]
  {
    if p.source in st.memo then Run(st, [], Pass)
    else
      var memo := st.memo + [p.source];
      var prep := PrepareTrace(p);
      var c := CompileStep(st, p, env);
      if c.outcome.Fail? then Run(State(memo, c.fs), prep + c.trace, c.outcome)
      else
        var a := AfterCompile(c.fs, p.source, p.deploy, p.copies, p.install, env);
        assert (prep + c.trace + a.trace)[..|prep| + 1] == prep + c.trace;
        Run(State(memo, a.fs), prep + c.trace + a.trace, a.outcome)
  }

  /** `typeScriptBuild` of the compiled version. A folder already in the
      memo makes it a no-op; otherwise the folder is in the memo afterwards
      whatever happened, the deploy folder is attempted first and the
      compiler (`npx tsc --project <source> --outDir <deploy>`, run from the
      library's folder) is launched next, whether or not that attempt
      failed. */
  function BuildLib(st: State, a: Asset, env: Env): (r: Run)
    ensures a.sourcePath in st.memo ==> r == Run(st, [], Pass)
    ensures a.sourcePath in r.state.memo && st.memo <= r.state.memo
    ensures a.sourcePath !in st.memo ==> r.state.memo == st.memo + [a.sourcePath]
    ensures a.sourcePath !in st.memo ==>
      && |r.trace| >= 2
      && r.trace[0] == MakeDir(DeployOf(a))
      && r.trace[1] == Spawn(Compiler, Invocation("npx", ["tsc", "--project", a.sourcePath, "--outDir", DeployOf(a)], env.libraryDir))
  {
    BuildWith(st, LibPlan(a, env.libraryDir), env)
  }

  /** `typeScriptBuild` of the older version: the same memo behaviour, no
      deploy folder creation, and the compiler (`npx tsc --outDir <deploy>`,
      run from the source folder) is the first thing launched. */
  function BuildSrc(st: State, path: Path, env: Env): (r: Run)
    ensures path in st.memo ==> r == Run(st, [], Pass)
    ensures path in r.state.memo && st.memo <= r.state.memo
    ensures path !in st.memo ==> r.state.memo == st.memo + [path]
    ensures path !in st.memo ==>
      && |r.trace| >= 1
      && r.trace[0] == Spawn(Compiler, Invocation("npx", ["tsc", "--outDir", DeployPath(path)], path))
  {
    BuildWith(st, SrcPlan(path), env)
  }

  /** What `bind` gives back: the session after the build and, when the
      build did not throw, the folder the base class resolves. */
  datatype Bound = Bound(run: Run, deployed: Option<Path>)

  /** `bind`: build first; a build that throws makes `bind` throw, otherwise
      the base class binds the deploy folder it was constructed with. */
  function Bind(st: State, a: Asset, env: Env): (b: Bound)
    ensures b.deployed.Some? <==> b.run.outcome.Pass?
    ensures b.deployed.Some? ==> b.deployed.value == DeployOf(a) && b.deployed.value != a.sourcePath
    ensures a.sourcePath in b.run.state.memo
    ensures a.sourcePath in st.memo ==> b == Bound(Run(st, [], Pass), Some(DeployOf(a)))
  {
    var r := BuildLib(st, a, env);
    Bound(r, if r.outcome.Pass? then Some(DeployOf(a)) else None)
  }
}

=== FILE: build_properties.dfy ===
/** Properties of whole builds: the compile gate, the install decision, the
    memo, and how the two versions relate. */
module BuildProperties {
  import opened Wrappers
  import opened Paths
  import opened FileSystem
  import opened Options
  import opened Steps
  import opened Copier
  import opened Packages
  import opened Build

  /** A compiler that cannot be launched or ends with a status other than 0
      ends the build with that error, right after the compiler launch: no
      file is copied, no manifest is written, the installer is never
      launched, and the only changes to the files are the deploy folder and
      whatever the compiler wrote. The folder stays in the memo. */
  lemma CompileFailureAborts(st: State, p: Plan, env: Env)
    requires p.source !in st.memo
    requires ProcessOutcome(env.compiler).Fail?
    ensures var r := BuildWith(st, p, env);
      && r.trace == PrepareTrace(p) + [Spawn(Compiler, p.compile)]
      && (env.compiler.LaunchFailed? ==> r.outcome == Fail(Thrown(env.compiler.code)))
      && (env.compiler.Exited? ==> r.outcome == Fail(StatusError(env.compiler.status)))
      && r.state.fs == (if env.compiler.Exited? then ApplyWrites(PreparedFs(st.fs, p), env.compiler.writes) else PreparedFs(st.fs, p))
      && CountLaunches(r.trace, Installer) == 0
      && p.source in r.state.memo
  {
  }

  /** The compile gate of the older version: the compiler runs from the
      source folder with `--outDir` set to the deploy folder, and its failure
      ends the build before any manifest is read or written. */
  lemma SrcCompileFailureAborts(st: State, path: Path, env: Env)
    requires path !in st.memo
    requires ProcessOutcome(env.compiler).Fail?
    ensures var r := BuildSrc(st, path, env);
      && r.trace == [Spawn(Compiler, Invocation("npx", ["tsc", "--outDir", DeployPath(path)], path))]
      && r.outcome == ProcessOutcome(env.compiler)
      && r.state.fs == (if env.compiler.Exited? then ApplyWrites(st.fs, env.compiler.writes) else st.fs)
  {
    CompileFailureAborts(st, SrcPlan(path), env);
  }

  /** The path is recorded before compiling, so a build whose compiler failed
      is not attempted again in the same session, even by another asset for
      the same folder and even if the compiler would now succeed. */
  lemma FailedCompileNotRetried(st: State, p: Plan, q: Plan, env: Env, env': Env)
    requires p.source !in st.memo
    requires ProcessOutcome(env.compiler).Fail?
    requires q.source == p.source
    ensures var r := BuildWith(st, p, env);
      && r.outcome.Fail?
      && BuildWith(r.state, q, env') == Run(r.state, [], Pass)
  {
    CompileFailureAborts(st, p, env);
  }

  /** The file system after a successful compile and copy loop. */
  function CopiedStep(st: State, p: Plan, env: Env): Step {
    CopyAll(CompileStep(st, p, env).fs, p.source, p.deploy, p.copies)
  }

  /** Once compiling and copying succeeded and the manifests could be read,
      the build ends with the installer step: its trace is the deploy
      folder attempt, the compiler launch, the whole copy list in order and
      the installer step's own effects; the installer is launched exactly
      when the change predicate holds and both manifest writes succeeded;
      and when the predicate is false nothing more is written. */
  lemma InstallDecision(st: State, p: Plan, env: Env)
    requires p.source !in st.memo
    requires ProcessOutcome(env.compiler).Pass?
    requires CopiedStep(st, p, env).outcome.Pass?
    requires ReadManifests(CopiedStep(st, p, env).fs, p.source, p.deploy).Ok?
    ensures var cp := CopiedStep(st, p, env);
      var m := ReadManifests(cp.fs, p.source, p.deploy).value;
      var s := Sync(cp.fs, m, p.deploy, p.install, env.nullLockWrite, env.installer);
      var r := BuildWith(st, p, env);
      && r.trace == PrepareTrace(p) + [Spawn(Compiler, p.compile)] + CopyTrace(p.source, p.deploy, p.copies) + s.trace
      && r.state.fs == s.fs
      && r.outcome == s.outcome
      && (CountLaunches(r.trace, Installer) == 1 <==>
            ShouldInstall(m) && WriteManifests(cp.fs, p.deploy, m, env.nullLockWrite).outcome.Pass?)
      && (!ShouldInstall(m) ==> r.outcome.Pass? && r.state.fs == cp.fs)
  {
    var c := CompileStep(st, p, env);
    var cp := CopiedStep(st, p, env);
    var m := ReadManifests(cp.fs, p.source, p.deploy).value;
    var s := Sync(cp.fs, m, p.deploy, p.install, env.nullLockWrite, env.installer);
    var ct := CopyTrace(p.source, p.deploy, p.copies);
    var head := PrepareTrace(p) + [Spawn(Compiler, p.compile)];
    BuildAfterGoodCompile(st, p, env);
    AfterCompileInstalls(c.fs, p.source, p.deploy, p.copies, p.install, env);
    AppendAssociates(head, ct, s.trace);
    HeadLaunchesNoInstaller(p);
    CountLaunchesAppend(head, ct + s.trace, Installer);
  }

  /** A build of a new folder whose compiler succeeded is the deploy folder
      attempt, the compiler launch and then the steps after compiling. */
  lemma BuildAfterGoodCompile(st: State, p: Plan, env: Env)
    requires p.source !in st.memo
    requires ProcessOutcome(env.compiler).Pass?
    ensures var c := CompileStep(st, p, env);
      var a := AfterCompile(c.fs, p.source, p.deploy, p.copies, p.install, env);
      BuildWith(st, p, env) == Run(State(st.memo + [p.source], a.fs), PrepareTrace(p) + [Spawn(Compiler, p.compile)] + a.trace, a.outcome)
  {
  }

  /** The deploy folder attempt and the compiler launch never launch the
      installer. */
  lemma HeadLaunchesNoInstaller(p: Plan)
    ensures CountLaunches(PrepareTrace(p) + [Spawn(Compiler, p.compile)], Installer) == 0
  {
    assert NoLaunches(PrepareTrace(p));
    NoLaunchesCountZero(PrepareTrace(p), Installer);
    CountLaunchesAppend(PrepareTrace(p), [Spawn(Compiler, p.compile)], Installer);
    assert [Spawn(Compiler, p.compile)][1..] == [];
  }

  /** Regrouping a concatenation of traces. */
  lemma AppendAssociates(a: seq<Effect>, b: seq<Effect>, c: seq<Effect>)
    ensures a + (b + c) == a + b + c
  {
  }

  /** After a good copy loop and good reads, the steps after compiling are
      the whole copy list followed by the installer step, and only the
      installer step can launch the installer. */
  lemma AfterCompileInstalls(fs: FileMap, source: Path, deploy: Path, copies: seq<CopyEntry>,
                             install: Invocation, env: Env)
    requires CopyAll(fs, source, deploy, copies).outcome.Pass?
    requires ReadManifests(CopyAll(fs, source, deploy, copies).fs, source, deploy).Ok?
    ensures var cp := CopyAll(fs, source, deploy, copies);
      var m := ReadManifests(cp.fs, source, deploy).value;
      var s := Sync(cp.fs, m, deploy, install, env.nullLockWrite, env.installer);
      var a := AfterCompile(fs, source, deploy, copies, install, env);
      && a == Step(s.fs, CopyTrace(source, deploy, copies) + s.trace, s.outcome)
      && CountLaunches(a.trace, Installer) == CountLaunches(s.trace, Installer)
  {
    var cp := CopyAll(fs, source, deploy, copies);
    var m := ReadManifests(cp.fs, source, deploy).value;
    var s := Sync(cp.fs, m, deploy, install, env.nullLockWrite, env.installer);
    CopyAllFollowsTrace(fs, source, deploy, copies);
    NoLaunchesCountZero(cp.trace, Installer);
    CountLaunchesAppend(cp.trace, s.trace, Installer);
  }

  /** The install step of the older version: when compiling succeeded and
      the manifests could be read, the installer is launched exactly when
      the change predicate holds and both writes succeeded, and it is then
      always `npm install --production` run in the deploy folder, right
      after the two manifest writes. */
  lemma SrcInstallsFixedCommand(st: State, path: Path, env: Env)
    requires path !in st.memo
    requires ProcessOutcome(env.compiler).Pass?
    requires ReadManifests(CompileStep(st, SrcPlan(path), env).fs, path, DeployPath(path)).Ok?
    ensures var fs := CompileStep(st, SrcPlan(path), env).fs;
      var m := ReadManifests(fs, path, DeployPath(path)).value;
      var r := BuildSrc(st, path, env);
      && (CountLaunches(r.trace, Installer) == 1 <==>
            ShouldInstall(m) && WriteManifests(fs, DeployPath(path), m, env.nullLockWrite).outcome.Pass?)
      && (CountLaunches(r.trace, Installer) == 1 ==>
            r.trace[1..] == [Write(LockIn(DeployPath(path))), Write(PkgIn(DeployPath(path))),
                             Spawn(Installer, Invocation("npm", ["install", "--production"], DeployPath(path)))])
      && (!ShouldInstall(m) ==> r.outcome.Pass? && r.state.fs == fs && |r.trace| == 1)
  {
    InstallDecision(st, SrcPlan(path), env);
  }

  /** A failing copy loop ends the build with the loop's thrown error: the
      trace stops inside the copy list, nothing is written after it, no
      manifest is read or written, and the installer is never launched. */
  lemma CopyFailureAborts(st: State, p: Plan, env: Env)
    requires p.source !in st.memo
    requires ProcessOutcome(env.compiler).Pass?
    requires CopiedStep(st, p, env).outcome.Fail?
    ensures var cp := CopiedStep(st, p, env);
      var r := BuildWith(st, p, env);
      && r.outcome == cp.outcome
      && r.outcome.error.Thrown?
      && r.state.fs == cp.fs
      && r.trace == PrepareTrace(p) + [Spawn(Compiler, p.compile)] + cp.trace
      && cp.trace <= CopyTrace(p.source, p.deploy, p.copies)
      && CountLaunches(r.trace, Installer) == 0
  {
    var c := CompileStep(st, p, env);
    var cp := CopiedStep(st, p, env);
    CopyAllFollowsTrace(c.fs, p.source, p.deploy, p.copies);
    assert NoLaunches(PrepareTrace(p));
    NoLaunchesCountZero(PrepareTrace(p), Installer);
    NoLaunchesCountZero(cp.trace, Installer);
    CountLaunchesAppend(PrepareTrace(p), [Spawn(Compiler, p.compile)], Installer);
    CountLaunchesAppend(PrepareTrace(p) + [Spawn(Compiler, p.compile)], cp.trace, Installer);
  }

  /** A manifest that cannot be read for a reason other than being missing
      (here: a folder where a file is expected) ends the build with that
      error once compiling and copying succeeded: the files are those the
      copy loop left, nothing is written, and the installer is never
      launched. */
  lemma ReadErrorAborts(st: State, p: Plan, env: Env)
    requires p.source !in st.memo
    requires ProcessOutcome(env.compiler).Pass?
    requires CopiedStep(st, p, env).outcome.Pass?
    requires var fs := CopiedStep(st, p, env).fs;
      exists q :: q in [LockIn(p.source), PkgIn(p.source), LockIn(p.deploy), PkgIn(p.deploy)] && q in fs && fs[q].Dir?
    ensures var cp := CopiedStep(st, p, env);
      var r := BuildWith(st, p, env);
      && r.outcome == Fail(Thrown(EISDIR))
      && r.state.fs == cp.fs
      && r.trace == PrepareTrace(p) + [Spawn(Compiler, p.compile)] + CopyTrace(p.source, p.deploy, p.copies)
      && CountLaunches(r.trace, Installer) == 0
  {
    var c := CompileStep(st, p, env);
    var ct := CopyTrace(p.source, p.deploy, p.copies);
    BuildAfterGoodCompile(st, p, env);
    AfterCompileReadError(c.fs, p.source, p.deploy, p.copies, p.install, env);
    CopyTraceShape(p.source, p.deploy, p.copies);
    NoLaunchesCountZero(ct, Installer);
    HeadLaunchesNoInstaller(p);
    CountLaunchesAppend(PrepareTrace(p) + [Spawn(Compiler, p.compile)], ct, Installer);
  }

  /** After a good copy loop, a failed read ends the steps after compiling
      with the read's error, right after the whole copy list. */
  lemma AfterCompileReadError(fs: FileMap, source: Path, deploy: Path, copies: seq<CopyEntry>,
                              install: Invocation, env: Env)
    requires CopyAll(fs, source, deploy, copies).outcome.Pass?
    requires ReadManifests(CopyAll(fs, source, deploy, copies).fs, source, deploy).Err?
    ensures var cp := CopyAll(fs, source, deploy, copies);
      AfterCompile(fs, source, deploy, copies, install, env)
        == Step(cp.fs, CopyTrace(source, deploy, copies), Fail(Thrown(ReadManifests(cp.fs, source, deploy).error)))
  {
    CopyAllFollowsTrace(fs, source, deploy, copies);
  }

  /** A manifest that cannot be read for a reason other than being missing
      (here: a folder where a file is expected) ends the older version's
      build with that error; nothing is written and the installer is never
      launched. */
  lemma SrcManifestReadErrorAborts(st: State, path: Path, env: Env)
    requires path !in st.memo
    requires ProcessOutcome(env.compiler).Pass?
    requires var fs := CompileStep(st, SrcPlan(path), env).fs;
      exists q :: q in [LockIn(path), PkgIn(path), LockIn(DeployPath(path)), PkgIn(DeployPath(path))] && q in fs && fs[q].Dir?
    ensures var r := BuildSrc(st, path, env);
      && r.outcome == Fail(Thrown(EISDIR))
      && r.state.fs == CompileStep(st, SrcPlan(path), env).fs
      && CountLaunches(r.trace, Installer) == 0
  {
    var r := BuildSrc(st, path, env);
    assert r.trace[1..] == [];
  }

  /** A build launches the compiler once if the folder was not yet built
      and never otherwise, and launches the installer at most once. */
  lemma LaunchesAtMostOnce(st: State, p: Plan, env: Env)
    ensures var r := BuildWith(st, p, env);
      && CountLaunches(r.trace, Compiler) == (if p.source in st.memo then 0 else 1)
      && CountLaunches(r.trace, Installer) <= 1
  {
    if p.source !in st.memo {
      var r := BuildWith(st, p, env);
      var c := CompileStep(st, p, env);
      var prep := PrepareTrace(p);
      assert NoLaunches(prep);
      assert c.trace[1..] == [];
      forall ph: Phase
        ensures CountLaunches(prep + c.trace, ph) == (if ph == Compiler then 1 else 0)
      {
        NoLaunchesCountZero(prep, ph);
        CountLaunchesAppend(prep, c.trace, ph);
      }
      if c.outcome.Pass? {
        var cp := CopyAll(c.fs, p.source, p.deploy, p.copies);
        CopyAllFollowsTrace(c.fs, p.source, p.deploy, p.copies);
        forall ph: Phase
          ensures CountLaunches(prep + c.trace + cp.trace, ph) == (if ph == Compiler then 1 else 0)
        {
          NoLaunchesCountZero(cp.trace, ph);
          CountLaunchesAppend(prep + c.trace, cp.trace, ph);
        }
        if cp.outcome.Pass? && ReadManifests(cp.fs, p.source, p.deploy).Ok? {
          var m := ReadManifests(cp.fs, p.source, p.deploy).value;
          var s := Sync(cp.fs, m, p.deploy, p.install, env.nullLockWrite, env.installer);
          CountLaunchesAppend(prep + c.trace + cp.trace, s.trace, Compiler);
          CountLaunchesAppend(prep + c.trace + cp.trace, s.trace, Installer);
        }
      }
    }
  }

  /** Binding twice, by two assets for the same source folder (whatever
      their options), launches the compiler and the installer at most once
      each across both calls; the second call changes nothing. */
  lemma RepeatedBindBuildsOnce(st: State, a1: Asset, a2: Asset, env1: Env, env2: Env)
    requires a1.sourcePath == a2.sourcePath
    ensures var b1 := Bind(st, a1, env1);
      var b2 := Bind(b1.run.state, a2, env2);
      && b2.run == Run(b1.run.state, [], Pass)
      && CountLaunches(b1.run.trace + b2.run.trace, Compiler) <= 1
      && CountLaunches(b1.run.trace + b2.run.trace, Installer) <= 1
  {
    var b1 := Bind(st, a1, env1);
    LaunchesAtMostOnce(st, LibPlan(a1, env1.libraryDir), env1);
    assert b1.run.trace + [] == b1.run.trace;
  }

  /** Two plans for the same folder that differ only in how they compile
      and leave the same files to the compiler end alike: the same state, the
      same outcome and the same effects after the compiler launch. */
  lemma SameAfterCompile(st: State, p: Plan, q: Plan, env: Env)
    requires p.source !in st.memo
    requires p.source == q.source && p.deploy == q.deploy && p.copies == q.copies && p.install == q.install
    requires PreparedFs(st.fs, p) == PreparedFs(st.fs, q)
    ensures var rp := BuildWith(st, p, env);
      var rq := BuildWith(st, q, env);
      && rp.state == rq.state
      && rp.outcome == rq.outcome
      && rp.trace[|PrepareTrace(p)| + 1..] == rq.trace[|PrepareTrace(q)| + 1..]
  {
    var cp := CompileStep(st, p, env);
    var cq := CompileStep(st, q, env);
    assert cp.fs == cq.fs && cp.outcome == cq.outcome;
    var a := AfterCompile(cp.fs, p.source, p.deploy, p.copies, p.install, env);
    var tail := if cp.outcome.Fail? then [] else a.trace;
    var rp := BuildWith(st, p, env);
    var rq := BuildWith(st, q, env);
    assert rp.trace == PrepareTrace(p) + cp.trace + tail;
    assert rq.trace == PrepareTrace(q) + cq.trace + tail;
  }

  /** With default options the compiled version's plan differs from the
      older version's only in creating the deploy folder and in its compiler
      invocation. */
  lemma LibDefaultsPlan(path: Path, libraryDir: Path)
    ensures var lp := LibPlan(NewAsset(path, None), libraryDir);
      var sp := SrcPlan(path);
      && lp.source == sp.source && lp.deploy == sp.deploy
      && lp.copies == sp.copies && lp.install == sp.install
      && lp.makeDeployDir && !sp.makeDeployDir
  {
  }

  /** The two versions agree on the files and on the outcome whenever the
      deploy folder already exists and the compiler behaves the same: the
      older version is the compiled one with default options, minus the
      deploy folder attempt and with a different compiler invocation. */
  lemma SrcAgreesWithLibDefaults(st: State, path: Path, env: Env)
    requires DeployPath(path) in st.fs
    ensures var rs := BuildSrc(st, path, env);
      var rl := BuildLib(st, NewAsset(path, None), env);
      && rs.state == rl.state
      && rs.outcome == rl.outcome
      && (path !in st.memo ==>
            rl.trace == [MakeDir(DeployPath(path))] + rs.trace[0 := Spawn(Compiler, LibPlan(NewAsset(path, None), env.libraryDir).compile)])
  {
    var lp := LibPlan(NewAsset(path, None), env.libraryDir);
    var sp := SrcPlan(path);
    LibDefaultsPlan(path, env.libraryDir);
    assert PreparedFs(st.fs, lp) == st.fs == PreparedFs(st.fs, sp) by {
      assert MkdirSync(st.fs, lp.deploy).Err?;
    }
    if path !in st.memo {
      SameAfterCompile(st, lp, sp, env);
      var rl := BuildWith(st, lp, env);
      var rs := BuildWith(st, sp, env);
      SpliceHead(rl.trace, rs.trace, MakeDir(DeployPath(path)), Spawn(Compiler, lp.compile));
    }
  }

  /** A trace that starts with `x, y` and otherwise continues like `b` after
      `b`'s first effect is `x` followed by `b` with its first effect
      replaced by `y`. */
  lemma SpliceHead(a: seq<Effect>, b: seq<Effect>, x: Effect, y: Effect)
    requires |a| >= 2 && a[0] == x && a[1] == y
    requires |b| >= 1 && a[2..] == b[1..]
    ensures a == [x] + b[0 := y]
  {
    assert a == [x, y] + a[2..];
    assert b[0 := y] == [y] + b[1..];
  }
}

=== FILE: copier.dfy ===
/** The copy-file loop: for each entry of `copyFiles`, in order, create the
    target's folder with `mkdirp`, then copy the source file onto the target.
    The first failure ends the loop and is thrown on. */
module Copier {
  import opened Paths
  import opened FileSystem
  import opened Options
  import opened Steps

  /** The file an entry copies from: its path under the source folder. */
  function SourceOf(source: Path, c: CopyEntry): Path {
    Join(source, c.sourcePath)
  }

  /** The file an entry copies to: its path under the deploy folder. */
  function TargetOf(deploy: Path, c: CopyEntry): Path {
    Join(deploy, c.targetPath)
  }

  /** The effects of one entry that succeeds: the folder of the target is
      created, then the file is copied into it. */
  function EntryTrace(source: Path, deploy: Path, c: CopyEntry): seq<Effect> {
    [MakeParents(Parent(TargetOf(deploy, c))), Copy(SourceOf(source, c), TargetOf(deploy, c))]
  }

  /** The effects of a loop in which every entry succeeds. */
  function CopyTrace(source: Path, deploy: Path, copies: seq<CopyEntry>): seq<Effect>
  {
    if copies == [] then []
    else EntryTrace(source, deploy, copies[0]) + CopyTrace(source, deploy, copies[1..])
  }

  /** Entry `k` of the list owns positions `2k` and `2k + 1` of the trace, so
      the entries are processed in list order; and no process is launched. */
  lemma {:induction false} CopyTraceShape(source: Path, deploy: Path, copies: seq<CopyEntry>)
    ensures |CopyTrace(source, deploy, copies)| == 2 * |copies|
    ensures forall k :: 0 <= k < |copies| ==>
      CopyTrace(source, deploy, copies)[2 * k..2 * k + 2] == EntryTrace(source, deploy, copies[k])
    ensures NoLaunches(CopyTrace(source, deploy, copies))
  {
    if copies != [] {
      var t := CopyTrace(source, deploy, copies);
      var rest := CopyTrace(source, deploy, copies[1..]);
      CopyTraceShape(source, deploy, copies[1..]);
      assert t == EntryTrace(source, deploy, copies[0]) + rest;
      forall k | 1 <= k < |copies|
        ensures t[2 * k..2 * k + 2] == EntryTrace(source, deploy, copies[k])
      {
        assert copies[k] == copies[1..][k - 1];
        assert t[2 * k..2 * k + 2] == rest[2 * (k - 1)..2 * (k - 1) + 2];
      }
    }
  }

  /** The loop over `copyFiles` (one step per entry, stopping at the first
      error). */
  function CopyAll(fs: FileMap, source: Path, deploy: Path, copies: seq<CopyEntry>): (r: Step)
    ensures fs.Keys <= r.fs.Keys
    ensures |r.trace| <= 2 * |copies|
    ensures r.outcome.Fail? ==> r.outcome.error.Thrown? && r.trace != []
    decreases |copies|
  {
    if copies == [] then Step(fs, [], Pass)
    else
      var c := copies[0];
      var from := SourceOf(source, c);
      var to := TargetOf(deploy, c);
      var dir := Parent(to);
      match EnsureDir(fs, dir)
      case Err(e) => Step(fs, [MakeParents(dir)], Fail(Thrown(e)))
      case Ok(fs1) =>
        match CopyFile(fs1, from, to)
        case Err(e) => Step(fs1, [MakeParents(dir), Copy(from, to)], Fail(Thrown(e)))
        case Ok(fs2) =>
          var rest := CopyAll(fs2, source, deploy, copies[1..]);
          Step(rest.fs, [MakeParents(dir), Copy(from, to)] + rest.trace, rest.outcome)
  }

  /** The loop attempts the entries in order and stops at the first failure:
      its effects are a prefix of the all-succeed trace, the whole of it when
      the loop succeeds, and end at the failing operation when it fails. It
      never launches a process and every error it reports is thrown on. */
  lemma {:induction false} CopyAllFollowsTrace(fs: FileMap, source: Path, deploy: Path, copies: seq<CopyEntry>)
    ensures var r := CopyAll(fs, source, deploy, copies);
      && |r.trace| <= |CopyTrace(source, deploy, copies)|
      && r.trace == CopyTrace(source, deploy, copies)[..|r.trace|]
      && (r.outcome.Pass? ==> r.trace == CopyTrace(source, deploy, copies))
      && (r.outcome.Fail? ==> |r.trace| > 0 && r.outcome.error.Thrown?)
      && NoLaunches(r.trace)
  {
    var r := CopyAll(fs, source, deploy, copies);
    var full := CopyTrace(source, deploy, copies);
    CopyAllTracePrefix(fs, source, deploy, copies);
    CopyTraceShape(source, deploy, copies);
    assert NoLaunches(r.trace) by {
      forall i | 0 <= i < |r.trace|
        ensures !r.trace[i].Spawn?
      {
        assert r.trace[i] == full[i];
      }
    }
  }

  /** The induction behind `CopyAllFollowsTrace`: the loop's effects are a
      prefix of the all-succeed trace, and all of it on success. */
  lemma {:induction false} CopyAllTracePrefix(fs: FileMap, source: Path, deploy: Path, copies: seq<CopyEntry>)
    ensures var r := CopyAll(fs, source, deploy, copies);
      && |r.trace| <= |CopyTrace(source, deploy, copies)|
      && r.trace == CopyTrace(source, deploy, copies)[..|r.trace|]
      && (r.outcome.Pass? ==> r.trace == CopyTrace(source, deploy, copies))
    decreases |copies|
  {
    if copies != [] {
      var e := EntryTrace(source, deploy, copies[0]);
      var rt := CopyTrace(source, deploy, copies[1..]);
      var r := CopyAll(fs, source, deploy, copies);
      assert CopyTrace(source, deploy, copies) == e + rt;
      CopyAllUnfold(fs, source, deploy, copies);
      var to := TargetOf(deploy, copies[0]);
      var d := EnsureDir(fs, Parent(to));
      if d.Err? || CopyFile(d.value, SourceOf(source, copies[0]), to).Err? {
        assert r.trace == e[..|r.trace|];
      } else {
        var next := CopyFile(d.value, SourceOf(source, copies[0]), to).value;
        var rest := CopyAll(next, source, deploy, copies[1..]);
        CopyAllTracePrefix(next, source, deploy, copies[1..]);
        assert r.trace == e + rest.trace;
        assert (e + rt)[..2 + |rest.trace|] == e + rt[..|rest.trace|];
      }
    }
  }

  /** One step of the loop: a failed `mkdirp` or copy ends it with that
      step's effects and thrown error; otherwise the entry's two effects come
      before the rest of the loop. */
  lemma CopyAllUnfold(fs: FileMap, source: Path, deploy: Path, copies: seq<CopyEntry>)
    requires copies != []
    ensures var c := copies[0];
      var to := TargetOf(deploy, c);
      var e := EntryTrace(source, deploy, c);
      var r := CopyAll(fs, source, deploy, copies);
      var d := EnsureDir(fs, Parent(to));
      && (d.Err? ==> r.trace == e[..1] && r.outcome.Fail? && r.outcome.error.Thrown?)
      && (d.Ok? && CopyFile(d.value, SourceOf(source, c), to).Err? ==>
            r.trace == e && r.outcome.Fail? && r.outcome.error.Thrown?)
      && (d.Ok? && CopyFile(d.value, SourceOf(source, c), to).Ok? ==>
            var rest := CopyAll(CopyFile(d.value, SourceOf(source, c), to).value, source, deploy, copies[1..]);
            r == Step(rest.fs, e + rest.trace, rest.outcome))
  {
  }

  /** The set of files the loop may write. */
  function Targets(deploy: Path, copies: seq<CopyEntry>): set<Path> {
    set k | 0 <= k < |copies| :: TargetOf(deploy, copies[k])
  }

  /** Entries already present that are not copy targets are left as they
      were, whatever the loop's outcome; the loop only ever adds entries. */
  lemma {:induction false} CopyAllFrame(fs: FileMap, source: Path, deploy: Path, copies: seq<CopyEntry>)
    ensures var r := CopyAll(fs, source, deploy, copies);
      && fs.Keys <= r.fs.Keys
      && forall q :: q in fs && q !in Targets(deploy, copies) ==> r.fs[q] == fs[q]
    decreases |copies|
  {
    if copies != [] {
      var c := copies[0];
      var to := TargetOf(deploy, c);
      assert Targets(deploy, copies) == {to} + Targets(deploy, copies[1..]) by {
        forall q | q in Targets(deploy, copies)
          ensures q in {to} + Targets(deploy, copies[1..])
        {
          var k :| 0 <= k < |copies| && q == TargetOf(deploy, copies[k]);
          if k > 0 {
            assert copies[k] == copies[1..][k - 1];
          }
        }
      }
      match EnsureDir(fs, Parent(to))
      case Err(_) =>
      case Ok(fs1) =>
        match CopyFile(fs1, SourceOf(source, c), to)
        case Err(_) =>
        case Ok(fs2) =>
          CopyAllFrame(fs2, source, deploy, copies[1..]);
    }
  }

  /** When the loop succeeds, every target is a file afterwards. */
  lemma {:induction false} CopiedTargetsAreFiles(fs: FileMap, source: Path, deploy: Path, copies: seq<CopyEntry>)
    requires CopyAll(fs, source, deploy, copies).outcome.Pass?
    ensures forall k :: 0 <= k < |copies| ==>
      Lookup(CopyAll(fs, source, deploy, copies).fs, TargetOf(deploy, copies[k])).Some?
    decreases |copies|
  {
    if copies != [] {
      var c := copies[0];
      var to := TargetOf(deploy, c);
      var fs1 := EnsureDir(fs, Parent(to)).value;
      var fs2 := CopyFile(fs1, SourceOf(source, c), to).value;
      var r := CopyAll(fs2, source, deploy, copies[1..]);
      CopiedTargetsAreFiles(fs2, source, deploy, copies[1..]);
      LaterStepsKeepFiles(fs2, source, deploy, copies[1..], to);
      forall k | 1 <= k < |copies|
        ensures Lookup(r.fs, TargetOf(deploy, copies[k])).Some?
      {
        assert copies[k] == copies[1..][k - 1];
      }
    }
  }

  /** A successful loop never turns a file into anything but a file. */
  lemma {:induction false} LaterStepsKeepFiles(fs: FileMap, source: Path, deploy: Path, copies: seq<CopyEntry>, q: Path)
    requires CopyAll(fs, source, deploy, copies).outcome.Pass?
    requires Lookup(fs, q).Some?
    ensures Lookup(CopyAll(fs, source, deploy, copies).fs, q).Some?
    decreases |copies|
  {
    if copies != [] {
      var c := copies[0];
      var to := TargetOf(deploy, c);
      var fs1 := EnsureDir(fs, Parent(to)).value;
      var fs2 := CopyFile(fs1, SourceOf(source, c), to).value;
      assert Lookup(fs2, q).Some?;
      LaterStepsKeepFiles(fs2, source, deploy, copies[1..], q);
    }
  }

  /** `mkdirp` runs before each copy: after a successful loop the folder of
      every target exists, and it is a folder. */
  lemma {:induction false} CopiedParentsAreFolders(fs: FileMap, source: Path, deploy: Path, copies: seq<CopyEntry>)
    requires CopyAll(fs, source, deploy, copies).outcome.Pass?
    ensures var r := CopyAll(fs, source, deploy, copies);
      forall k :: 0 <= k < |copies| ==>
        Parent(TargetOf(deploy, copies[k])) in r.fs && r.fs[Parent(TargetOf(deploy, copies[k]))].Dir?
    decreases |copies|
  {
    if copies != [] {
      var c := copies[0];
      var to := TargetOf(deploy, c);
      var dir := Parent(to);
      CopyAllUnfold(fs, source, deploy, copies);
      var d := EnsureDir(fs, dir);
      assert d.Ok?;
      var cf := CopyFile(d.value, SourceOf(source, c), to);
      assert cf.Ok?;
      var fs2 := cf.value;
      var r := CopyAll(fs2, source, deploy, copies[1..]);
      assert CopyAll(fs, source, deploy, copies).fs == r.fs;
      StepLeavesParentFolder(fs, SourceOf(source, c), to);
      CopiedParentsAreFolders(fs2, source, deploy, copies[1..]);
      LaterStepsKeepFolders(fs2, source, deploy, copies[1..], dir);
      forall k | 0 <= k < |copies|
        ensures Parent(TargetOf(deploy, copies[k])) in r.fs && r.fs[Parent(TargetOf(deploy, copies[k]))].Dir?
      {
        if k > 0 {
          assert copies[k] == copies[1..][k - 1];
        }
      }
    }
  }

  /** One successful `mkdirp` and copy leave the target's folder a folder. */
  lemma StepLeavesParentFolder(fs: FileMap, from: Path, to: Path)
    requires EnsureDir(fs, Parent(to)).Ok?
    requires CopyFile(EnsureDir(fs, Parent(to)).value, from, to).Ok?
    ensures var fs2 := CopyFile(EnsureDir(fs, Parent(to)).value, from, to).value;
      Parent(to) in fs2 && fs2[Parent(to)].Dir?
  {
  }

  /** A successful loop never turns a folder into anything but a folder. */
  lemma {:induction false} LaterStepsKeepFolders(fs: FileMap, source: Path, deploy: Path, copies: seq<CopyEntry>, q: Path)
    requires CopyAll(fs, source, deploy, copies).outcome.Pass?
    requires q in fs && fs[q].Dir?
    ensures var r := CopyAll(fs, source, deploy, copies);
      q in r.fs && r.fs[q].Dir?
    decreases |copies|
  {
    if copies != [] {
      var c := copies[0];
      var to := TargetOf(deploy, c);
      var fs1 := EnsureDir(fs, Parent(to)).value;
      var fs2 := CopyFile(fs1, SourceOf(source, c), to).value;
      assert q in fs2 && fs2[q].Dir?;
      LaterStepsKeepFolders(fs2, source, deploy, copies[1..], q);
    }
  }

  /** No entry reads a file another entry writes, and no two entries write
      the same file. */
  predicate Unaliased(source: Path, deploy: Path, copies: seq<CopyEntry>) {
    && (forall i, j :: 0 <= i < |copies| && 0 <= j < |copies| ==>
          SourceOf(source, copies[i]) != TargetOf(deploy, copies[j]))
    && (forall i, j :: 0 <= i < j < |copies| ==>
          TargetOf(deploy, copies[i]) != TargetOf(deploy, copies[j]))
  }

  /** Dropping the first entry keeps a list unaliased; the first entry's
      target is neither written again nor read by the later entries. */
  lemma UnaliasedTail(source: Path, deploy: Path, copies: seq<CopyEntry>)
    requires Unaliased(source, deploy, copies) && copies != []
    ensures Unaliased(source, deploy, copies[1..])
    ensures TargetOf(deploy, copies[0]) !in Targets(deploy, copies[1..])
    ensures forall k :: 0 <= k < |copies| ==> SourceOf(source, copies[k]) != TargetOf(deploy, copies[0])
  {
    var rest := copies[1..];
    forall i, j | 0 <= i < |rest| && 0 <= j < |rest|
      ensures SourceOf(source, rest[i]) != TargetOf(deploy, rest[j])
    {
      assert rest[i] == copies[i + 1] && rest[j] == copies[j + 1];
    }
    forall i, j | 0 <= i < j < |rest|
      ensures TargetOf(deploy, rest[i]) != TargetOf(deploy, rest[j])
    {
      assert rest[i] == copies[i + 1] && rest[j] == copies[j + 1];
    }
    forall q | q in Targets(deploy, rest)
      ensures q != TargetOf(deploy, copies[0])
    {
      var k :| 0 <= k < |rest| && q == TargetOf(deploy, rest[k]);
      assert rest[k] == copies[k + 1];
    }
  }

  /** Copy fidelity: after a successful loop whose entries do not alias each
      other, every source was a file and every target holds exactly the text
      its source held before the loop. */
  lemma {:induction false} CopyFidelity(fs: FileMap, source: Path, deploy: Path, copies: seq<CopyEntry>)
    requires Unaliased(source, deploy, copies)
    requires CopyAll(fs, source, deploy, copies).outcome.Pass?
    ensures forall k :: 0 <= k < |copies| ==>
      && Lookup(fs, SourceOf(source, copies[k])).Some?
      && Lookup(CopyAll(fs, source, deploy, copies).fs, TargetOf(deploy, copies[k])) == Lookup(fs, SourceOf(source, copies[k]))
    decreases |copies|
  {
    if copies != [] {
      var c := copies[0];
      var from := SourceOf(source, c);
      var to := TargetOf(deploy, c);
      var fs1 := EnsureDir(fs, Parent(to)).value;
      var fs2 := CopyFile(fs1, from, to).value;
      var rest := copies[1..];
      var r := CopyAll(fs2, source, deploy, rest);
      assert r.fs == CopyAll(fs, source, deploy, copies).fs && r.outcome.Pass?;
      UnaliasedTail(source, deploy, copies);
      CopyFidelity(fs2, source, deploy, rest);
      CopyAllFrame(fs2, source, deploy, rest);
      assert Lookup(r.fs, to) == Lookup(fs2, to) == Lookup(fs, from);
      forall k | 1 <= k < |copies|
        ensures Lookup(fs, SourceOf(source, copies[k])).Some?
        ensures Lookup(r.fs, TargetOf(deploy, copies[k])) == Lookup(fs, SourceOf(source, copies[k]))
      {
        assert copies[k] == rest[k - 1];
        assert Lookup(fs2, SourceOf(source, copies[k])) == Lookup(fs, SourceOf(source, copies[k]));
      }
    }
  }
}

=== FILE: decimal.dfy ===
/** JavaScript's rendering of an integer-valued number when it is
    concatenated to a string (`'...' + status`): an optional minus sign
    followed by decimal digits without leading zeros. This is JavaScript's
    rendering only for magnitudes below 10^21; larger numbers are written in
    exponent form, which the model does not cover (exit statuses are small). */
module Decimal {

  predicate IsDigit(c: char) {
    '0' <= c <= '9'
  }

  predicate AllDigits(s: string) {
    forall i :: 0 <= i < |s| ==> IsDigit(s[i])
  }

  function DigitChar(d: nat): (c: char)
    requires d < 10
    ensures IsDigit(c)
  {
    ('0' as int + d) as char
  }

  function DigitValue(c: char): nat
    requires IsDigit(c)
  {
    (c as int - '0' as int) as nat
  }

  /** The digits of a natural number, most significant first. */
  function NatToDecimal(n: nat): (s: string)
    ensures |s| > 0 && AllDigits(s)
    ensures n > 0 ==> s[0] != '0'
    decreases n
  {
    if n < 10 then [DigitChar(n)] else NatToDecimal(n / 10) + [DigitChar(n % 10)]
  }

  /** Reads a string of digits back as a number. */
  function DecimalToNat(s: string): nat
    requires AllDigits(s)
  {
    if |s| == 0 then 0 else DecimalToNat(s[..|s| - 1]) * 10 + DigitValue(s[|s| - 1])
  }

  lemma {:induction false} DecimalRoundTrip(n: nat)
    ensures DecimalToNat(NatToDecimal(n)) == n
  {
    var s := NatToDecimal(n);
    if n >= 10 {
      DecimalRoundTrip(n / 10);
      assert s[..|s| - 1] == NatToDecimal(n / 10);
    }
  }

  /** `'' + i` for an integer `i`: the digits read back as the magnitude. */
  function IntToDecimal(i: int): (s: string)
    ensures |s| > 0
    ensures i < 0 <==> s[0] == '-'
    ensures i >= 0 ==> (s[0] == '0' ==> s == "0")
    ensures i < 0 ==> |s| > 1 && s[1] != '0'
    ensures i >= 0 ==> AllDigits(s) && DecimalToNat(s) == i
    ensures i < 0 ==> AllDigits(s[1..]) && DecimalToNat(s[1..]) == -i
  {
    if i < 0 then
      DecimalRoundTrip(-i);
      assert ("-" + NatToDecimal(-i))[1..] == NatToDecimal(-i);
      "-" + NatToDecimal(-i)
    else
      DecimalRoundTrip(i);
      NatToDecimal(i)
  }

  /** Different integers never render to the same text. */
  lemma IntToDecimalInjective(a: int, b: int)
    ensures IntToDecimal(a) == IntToDecimal(b) <==> a == b
  {
  }
}

=== FILE: filesystem.dfy ===
/** The part of `fs` and `mkdirp` the build uses, over an abstract file map.
    A path missing from the map does not exist (ENOENT); a folder is `Dir`.
    Permissions, links and the existence of parent folders are not modelled. */
module FileSystem {
  import opened Wrappers
  import opened Paths

  datatype Node = File(text: string) | Dir

  /** The `err.code` values the model distinguishes. ERR_INVALID_ARG_TYPE is
      what newer Node runtimes throw for `null` data given to a write. */
  datatype ErrorCode = ENOENT | EEXIST | EISDIR | ERR_INVALID_ARG_TYPE

  type FileMap = map<Path, Node>

  /** The text of the file at `p`, or `None` when there is no file there. */
  function Lookup(fs: FileMap, p: Path): Option<string> {
    if p in fs && fs[p].File? then Some(fs[p].text) else None
  }

  /** `fs.readFileSync(p, 'utf8')`. */
  function ReadFile(fs: FileMap, p: Path): (r: Result<string, ErrorCode>)
    ensures r.Ok? <==> Lookup(fs, p).Some?
    ensures r.Ok? ==> r.value == Lookup(fs, p).value
  {
    if p !in fs then Err(ENOENT)
    else match fs[p]
      case File(t) => Ok(t)
      case Dir => Err(EISDIR)
  }

  /** `readFileSyncOrNull`: a missing file reads as `null`; every other read
      error is thrown on unchanged. */
  function ReadFileOrNull(fs: FileMap, p: Path): (r: Result<Option<string>, ErrorCode>)
    ensures r == Ok(None) <==> p !in fs
    ensures r.Ok? && r.value.Some? <==> p in fs && fs[p].File?
    ensures r.Ok? ==> r.value == Lookup(fs, p)
    ensures r.Err? <==> ReadFile(fs, p).Err? && ReadFile(fs, p).error != ENOENT
    ensures r.Err? ==> r.error == ReadFile(fs, p).error
  {
    match ReadFile(fs, p)
    case Ok(t) => Ok(Some(t))
    case Err(e) => if e == ENOENT then Ok(None) else Err(e)
  }

  /** `fs.mkdirSync(p)`: fails with EEXIST when something is already there;
      otherwise adds the one folder and leaves every file as it was. */
  function MkdirSync(fs: FileMap, p: Path): (r: Result<FileMap, ErrorCode>)
    ensures r.Ok? <==> p !in fs
    ensures r.Ok? ==> r.value.Keys == fs.Keys + {p} && r.value[p] == Dir
    ensures r.Ok? ==> forall q :: Lookup(r.value, q) == Lookup(fs, q)
    ensures r.Err? ==> r.error == EEXIST
  {
    if p in fs then Err(EEXIST) else Ok(fs[p := Dir])
  }

  /** `mkdirp.sync(p)`: creates a missing folder, accepts an existing one, and
      fails when a file is in the way. It never changes an existing entry. */
  function EnsureDir(fs: FileMap, p: Path): (r: Result<FileMap, ErrorCode>)
    ensures r.Ok? <==> p !in fs || fs[p].Dir?
    ensures r.Ok? ==> r.value.Keys == fs.Keys + {p} && r.value[p] == Dir
    ensures r.Ok? ==> forall q :: q in fs ==> r.value[q] == fs[q]
    ensures r.Ok? ==> forall q :: Lookup(r.value, q) == Lookup(fs, q)
  {
    if p !in fs then Ok(fs[p := Dir])
    else if fs[p].Dir? then Ok(fs)
    else Err(EEXIST)
  }

  /** `fs.copyFileSync(from, to)`: the target receives the source's content.
      A target that names a folder, by an entry or by a trailing separator,
      cannot be opened for writing. */
  function CopyFile(fs: FileMap, from: Path, to: Path): (r: Result<FileMap, ErrorCode>)
    ensures r.Ok? <==> Lookup(fs, from).Some? && !(to in fs && fs[to].Dir?) && !EndsWithSeparator(to)
    ensures r.Ok? ==> Lookup(r.value, to) == Lookup(fs, from)
    ensures r.Ok? ==> r.value.Keys == fs.Keys + {to}
    ensures r.Ok? ==> forall q :: q in fs && q != to ==> r.value[q] == fs[q]
    ensures r.Ok? ==> forall q :: q != to ==> Lookup(r.value, q) == Lookup(fs, q)
  {
    if from !in fs then Err(ENOENT)
    else if fs[from].Dir? then Err(EISDIR)
    else if (to in fs && fs[to].Dir?) || EndsWithSeparator(to) then Err(EISDIR)
    else Ok(fs[to := fs[from]])
  }

  /** `fs.writeFileSync(p, text, 'utf8')`: reading the file back gives `text`. */
  function WriteFile(fs: FileMap, p: Path, text: string): (r: Result<FileMap, ErrorCode>)
    ensures r.Ok? <==> !(p in fs && fs[p].Dir?)
    ensures r.Ok? ==> ReadFileOrNull(r.value, p) == Ok(Some(text))
    ensures r.Ok? ==> r.value.Keys == fs.Keys + {p}
    ensures r.Ok? ==> forall q :: q in fs && q != p ==> r.value[q] == fs[q]
    ensures r.Err? ==> r.error == EISDIR
  {
    if p in fs && fs[p].Dir? then Err(EISDIR) else Ok(fs[p := File(text)])
  }

  /** `fs.writeFileSync(p, data, 'utf8')` where `data` may be `null`. What the
      runtime does with `null` differs between Node versions (older ones write
      some text, newer ones throw before touching the file), so it is given as
      `nullWrite`. Non-null data reads back unchanged. */
  function WriteData(fs: FileMap, p: Path, data: Option<string>, nullWrite: Result<string, ErrorCode>): (r: Result<FileMap, ErrorCode>)
    ensures data.Some? ==> r == WriteFile(fs, p, data.value)
    ensures data.Some? && r.Ok? ==> ReadFileOrNull(r.value, p) == Ok(data)
    ensures data.None? && nullWrite.Err? ==> r == Err(nullWrite.error)
    ensures data.None? && nullWrite.Ok? ==> r == WriteFile(fs, p, nullWrite.value)
  {
    match data
    case Some(t) => WriteFile(fs, p, t)
    case None =>
      match nullWrite
      case Err(e) => Err(e)
      case Ok(t) => WriteFile(fs, p, t)
  }

  /** The files a finished child process left behind, laid over `fs`. */
  function ApplyWrites(fs: FileMap, writes: map<Path, string>): (r: FileMap)
    ensures r.Keys == fs.Keys + writes.Keys
    ensures forall q :: q in writes ==> r[q] == File(writes[q])
    ensures forall q :: q in fs && q !in writes ==> r[q] == fs[q]
  {
    map q | q in fs.Keys + writes.Keys :: if q in writes then File(writes[q]) else fs[q]
  }
}

=== FILE: options.dfy ===
/** The asset's build options: the installer command and its arguments, and
    the extra files to copy into the deploy folder. */
module Options {
  import opened Wrappers
  import opened Paths

  /** One entry of `copyFiles`: `sourcePath` is relative to the source
      folder, `targetPath` relative to the deploy folder. */
  datatype CopyEntry = CopyEntry(sourcePath: Path, targetPath: Path)

  /** The effective options of an asset after defaults have been applied. */
  datatype BuildOptions = BuildOptions(
    npmInstallCommand: string,
    npmInstallArguments: seq<string>,
    copyFiles: seq<CopyEntry>)

  /** The options object a caller passes; each key may be left out. */
  datatype UserOptions = UserOptions(
    npmInstallCommand: Option<string>,
    npmInstallArguments: Option<seq<string>>,
    copyFiles: Option<seq<CopyEntry>>)

  /** `defaultTypeScriptAssetCodeOptions`. */
  const Defaults: BuildOptions := BuildOptions("npm", ["install", "--production"], [])

  /** An options object that leaves every key out. */
  const NoKeys: UserOptions := UserOptions(None, None, None)

  /** The same options, given explicitly for every key. */
  function AllKeys(o: BuildOptions): UserOptions {
    UserOptions(Some(o.npmInstallCommand), Some(o.npmInstallArguments), Some(o.copyFiles))
  }

  /** `Object.assign({}, defaultTypeScriptAssetCodeOptions, options || {})`:
      a shallow merge in which every key the caller gives wins over the
      default and every key it leaves out keeps the default. */
  function Merge(user: Option<UserOptions>): (o: BuildOptions)
    ensures user.None? ==> o == Defaults
    ensures user.Some? && user.value.npmInstallCommand.Some? ==> o.npmInstallCommand == user.value.npmInstallCommand.value
    ensures user.Some? && user.value.npmInstallArguments.Some? ==> o.npmInstallArguments == user.value.npmInstallArguments.value
    ensures user.Some? && user.value.copyFiles.Some? ==> o.copyFiles == user.value.copyFiles.value
    ensures (user.None? || user.value.npmInstallCommand.None?) ==> o.npmInstallCommand == "npm"
    ensures (user.None? || user.value.npmInstallArguments.None?) ==> o.npmInstallArguments == ["install", "--production"]
    ensures (user.None? || user.value.copyFiles.None?) ==> o.copyFiles == []
  {
    var u := match user case None => NoKeys case Some(v) => v;
    BuildOptions(
      match u.npmInstallCommand case None => Defaults.npmInstallCommand case Some(c) => c,
      match u.npmInstallArguments case None => Defaults.npmInstallArguments case Some(a) => a,
      match u.copyFiles case None => Defaults.copyFiles case Some(f) => f)
  }

  /** Passing no options and passing an empty options object are the same,
      and both give the defaults. */
  lemma MergeEmptyIsDefaults()
    ensures Merge(None) == Merge(Some(NoKeys)) == Defaults
  {
  }

  /** Options that give every key are taken over unchanged. */
  lemma MergeAllKeysKeepsThem(o: BuildOptions)
    ensures Merge(Some(AllKeys(o))) == o
  {
  }
}

=== FILE: packages.dfy ===
/** The change detector and the dependency installer step: read the manifest
    pair (`package.json` and `package-lock.json`) from the source folder and
    from the deploy folder, decide whether to install, and if so write the
    pair into the deploy folder and run the installer there. */
module Packages {
  import opened Wrappers
  import opened Paths
  import opened FileSystem
  import opened Steps

  /** The four reads, `null` (here `None`) standing for a missing file:
      the new pair comes from the source folder, the old pair from the deploy
      folder. */
  datatype Manifests = Manifests(
    newLock: Option<string>,
    newPkg: Option<string>,
    oldLock: Option<string>,
    oldPkg: Option<string>)

  function LockIn(dir: Path): Path {
    Join(dir, PackageLockJson)
  }

  function PkgIn(dir: Path): Path {
    Join(dir, PackageJson)
  }

  /** The four manifest files an asset's build reads. */
  function ManifestPaths(source: Path): set<Path> {
    {LockIn(source), PkgIn(source), LockIn(DeployPath(source)), PkgIn(DeployPath(source))}
  }

  /** None of the four manifest files is the same file as another. */
  lemma ManifestPathsDistinct(source: Path)
    ensures |{LockIn(source), PkgIn(source)}| == 2
    ensures LockIn(DeployPath(source)) != PkgIn(DeployPath(source))
    ensures LockIn(source) !in {LockIn(DeployPath(source)), PkgIn(DeployPath(source))}
    ensures PkgIn(source) !in {LockIn(DeployPath(source)), PkgIn(DeployPath(source))}
  {
  }

  /** The four reads, in the order the build makes them; the first read that
      throws ends the step with its error. */
  function ReadManifests(fs: FileMap, source: Path, deploy: Path): (r: Result<Manifests, ErrorCode>)
    ensures r.Ok? <==> forall p :: p in [LockIn(source), PkgIn(source), LockIn(deploy), PkgIn(deploy)] ==> !(p in fs && fs[p].Dir?)
    ensures r.Ok? ==> r.value == Manifests(Lookup(fs, LockIn(source)), Lookup(fs, PkgIn(source)), Lookup(fs, LockIn(deploy)), Lookup(fs, PkgIn(deploy)))
    ensures r.Err? ==> r.error == EISDIR
  {
    var newLock :- ReadFileOrNull(fs, LockIn(source));
    var newPkg :- ReadFileOrNull(fs, PkgIn(source));
    var oldLock :- ReadFileOrNull(fs, LockIn(deploy));
    var oldPkg :- ReadFileOrNull(fs, PkgIn(deploy));
    Ok(Manifests(newLock, newPkg, oldLock, oldPkg))
  }

  /** JavaScript truthiness of a string that may be `null`: present and not empty. */
  predicate Truthy(s: Option<string>) {
    s.Some? && s.value != ""
  }

  /** The change predicate: install when there is a non-empty `package.json`
      in the source and either file of the pair differs from the copy in the
      deploy folder. A missing file differs from an empty one. */
  function ShouldInstall(m: Manifests): (r: bool)
    ensures r ==> m.newPkg.Some? && m.newPkg.value != ""
    ensures m.newPkg == m.oldPkg && m.newLock == m.oldLock ==> !r
    ensures Truthy(m.newPkg) && m.newPkg != m.oldPkg ==> r
    ensures Truthy(m.newPkg) && m.newLock != m.oldLock ==> r
  {
    Truthy(m.newPkg) && (m.newPkg != m.oldPkg || m.newLock != m.oldLock)
  }

  /** The truth table of the change predicate over "package.json present",
      "package.json changed" and "lock changed", including the first build
      (nothing in the deploy folder yet) and a lock file that was there
      before and is gone now. */
  lemma ShouldInstallTruthTable(m: Manifests)
    ensures m.newPkg.None? ==> !ShouldInstall(m)
    ensures m.newPkg == Some("") ==> !ShouldInstall(m)
    ensures Truthy(m.newPkg) && m.oldPkg.None? ==> ShouldInstall(m)
    ensures Truthy(m.newPkg) && m.newPkg == m.oldPkg ==> (ShouldInstall(m) <==> m.newLock != m.oldLock)
    ensures Truthy(m.newPkg) && m.newLock.None? && m.oldLock.Some? ==> ShouldInstall(m)
  {
  }

  /** Writing the pair into the deploy folder: the lock file first, then
      `package.json`; the first write that throws ends the step. */
  function WriteManifests(fs: FileMap, deploy: Path, m: Manifests, nullLockWrite: Result<string, ErrorCode>): (r: Step)
    requires m.newPkg.Some?
    ensures r.outcome.Pass? <==>
      && !(LockIn(deploy) in fs && fs[LockIn(deploy)].Dir?)
      && !(PkgIn(deploy) in fs && fs[PkgIn(deploy)].Dir?)
      && (m.newLock.Some? || nullLockWrite.Ok?)
    ensures r.outcome.Pass? ==> r.trace == [Write(LockIn(deploy)), Write(PkgIn(deploy))]
    ensures r.outcome.Pass? ==> Lookup(r.fs, PkgIn(deploy)) == m.newPkg
    ensures r.outcome.Pass? && m.newLock.Some? ==> Lookup(r.fs, LockIn(deploy)) == m.newLock
    ensures forall q :: q != LockIn(deploy) && q != PkgIn(deploy) ==> Lookup(r.fs, q) == Lookup(fs, q)
    ensures r.outcome.Fail? ==>
      && r.outcome.error.Thrown? && 0 < |r.trace| <= 2
      && r.trace == [Write(LockIn(deploy)), Write(PkgIn(deploy))][..|r.trace|]
  {
    var lock := LockIn(deploy);
    var pkg := PkgIn(deploy);
    assert lock != pkg;
    match WriteData(fs, lock, m.newLock, nullLockWrite)
    case Err(e) => Step(fs, [Write(lock)], Fail(Thrown(e)))
    case Ok(fs1) =>
      match WriteFile(fs1, pkg, m.newPkg.value)
      case Err(e) => Step(fs1, [Write(lock), Write(pkg)], Fail(Thrown(e)))
      case Ok(fs2) => Step(fs2, [Write(lock), Write(pkg)], Pass)
  }

  /** The installer step as a whole. When the predicate is false nothing is
      written and nothing is launched. Otherwise the installer is launched
      only after both files were written, and its failure ends the step. */
  function Sync(fs: FileMap, m: Manifests, deploy: Path, install: Invocation,
                nullLockWrite: Result<string, ErrorCode>, installer: Process): (s: Step)
    ensures !ShouldInstall(m) ==> s == Step(fs, [], Pass)
    ensures CountLaunches(s.trace, Installer) <= 1
    ensures CountLaunches(s.trace, Compiler) == 0
    ensures CountLaunches(s.trace, Installer) == 1 <==>
      ShouldInstall(m) && WriteManifests(fs, deploy, m, nullLockWrite).outcome.Pass?
    ensures CountLaunches(s.trace, Installer) == 1 ==>
      && s.trace == [Write(LockIn(deploy)), Write(PkgIn(deploy)), Spawn(Installer, install)]
      && s.outcome == ProcessOutcome(installer)
    ensures ShouldInstall(m) && CountLaunches(s.trace, Installer) == 0 ==>
      s == WriteManifests(fs, deploy, m, nullLockWrite) && s.outcome.Fail?
  {
    if !ShouldInstall(m) then Step(fs, [], Pass)
    else
      var w := WriteManifests(fs, deploy, m, nullLockWrite);
      if w.outcome.Fail? then
        assert NoLaunches(w.trace);
        NoLaunchesCountZero(w.trace, Installer);
        NoLaunchesCountZero(w.trace, Compiler);
        w
      else
        var p := RunProcess(w.fs, Installer, install, installer);
        var t := w.trace + p.trace;
        assert NoLaunches(w.trace) && p.trace[1..] == [];
        NoLaunchesCountZero(w.trace, Installer);
        NoLaunchesCountZero(w.trace, Compiler);
        CountLaunchesAppend(w.trace, p.trace, Installer);
        CountLaunchesAppend(w.trace, p.trace, Compiler);
        Step(p.fs, t, p.outcome)
  }

  /** On a runtime that rejects `null` data, a lock file missing from the
      source while `package.json` asks for an install ends the step at the
      first write: nothing changes and the installer is not launched. */
  lemma MissingLockFailsOnStrictRuntime(fs: FileMap, m: Manifests, deploy: Path, install: Invocation, installer: Process)
    requires ShouldInstall(m) && m.newLock.None?
    ensures var s := Sync(fs, m, deploy, install, Err(ERR_INVALID_ARG_TYPE), installer);
      && s.outcome == Fail(Thrown(ERR_INVALID_ARG_TYPE))
      && s.trace == [Write(LockIn(deploy))]
      && s.fs == fs
      && CountLaunches(s.trace, Installer) == 0
  {
  }

  /** The folder the installer runs in holds the new pair: reading the deploy
      copies back gives exactly what was read from the source folder. */
  lemma InstallerSeesNewManifests(fs: FileMap, source: Path, m: Manifests, nullLockWrite: Result<string, ErrorCode>)
    requires ReadManifests(fs, source, DeployPath(source)) == Ok(m)
    requires ShouldInstall(m) && m.newLock.Some?
    requires WriteManifests(fs, DeployPath(source), m, nullLockWrite).outcome.Pass?
    ensures var w := WriteManifests(fs, DeployPath(source), m, nullLockWrite);
      && ReadManifests(w.fs, source, DeployPath(source)).Ok?
      && ReadManifests(w.fs, source, DeployPath(source)).value == Manifests(m.newLock, m.newPkg, m.newLock, m.newPkg)
  {
  }

  /** No reinstall without a change: after a successful installer step whose
      installer left the four manifest files alone, reading the pair again
      from an unchanged source finds nothing to install. */
  lemma NoReinstallAfterSync(fs: FileMap, source: Path, m: Manifests, install: Invocation,
                             nullLockWrite: Result<string, ErrorCode>, installer: Process)
    requires ReadManifests(fs, source, DeployPath(source)) == Ok(m)
    requires ShouldInstall(m) ==> m.newLock.Some?
    requires Sync(fs, m, DeployPath(source), install, nullLockWrite, installer).outcome.Pass?
    requires installer.Exited? ==> ManifestPaths(source) !! installer.writes.Keys
    ensures var s := Sync(fs, m, DeployPath(source), install, nullLockWrite, installer);
      && ReadManifests(s.fs, source, DeployPath(source)).Ok?
      && !ShouldInstall(ReadManifests(s.fs, source, DeployPath(source)).value)
  {
  }
}

=== FILE: paths.dfy ===
/** Paths as abstract keys. `path.join` is modelled as joining two parts with
    one separator (no normalisation of `..`, `.` or repeated separators), and
    `path.parse(p).dir` as the part before the last separator. */
module Paths {

  type Path = string

  const Separator: char := '/'

  /** The sub-folder of the source folder that holds the deployable build. */
  const DeployDirName: string := ".deploy"

  /** The two manifest file names the installer step reads and writes. */
  const PackageJson: string := "package.json"
  const PackageLockJson: string := "package-lock.json"

  /** `path.join(base, rel)` without normalisation. */
  function Join(base: Path, rel: Path): Path {
    base + [Separator] + rel
  }

  /** Joining onto the same base keeps relative paths apart. */
  lemma JoinInjective(base: Path, rel1: Path, rel2: Path)
    ensures Join(base, rel1) == Join(base, rel2) <==> rel1 == rel2
  {
    if Join(base, rel1) == Join(base, rel2) {
      assert rel1 == Join(base, rel1)[|base| + 1..];
      assert rel2 == Join(base, rel2)[|base| + 1..];
    }
  }

  /** The `.deploy` folder an asset hands to the deployment: it lies inside
      the source folder and is never the source folder itself. */
  function DeployPath(source: Path): (d: Path)
    ensures d != source
    ensures |source| < |d| && d[..|source|] == source && d[|source|] == Separator
  {
    Join(source, DeployDirName)
  }

  /** A path written with a trailing separator, which can only name a folder. */
  predicate EndsWithSeparator(p: Path) {
    |p| > 0 && p[|p| - 1] == Separator
  }

  /** Where the scan of `PartStart` may stop: an absolute path keeps its
      leading separator as its root. */
  function RootLength(p: Path): (n: nat)
    ensures n <= 1 && n <= |p|
    ensures n == 1 <==> |p| > 0 && p[0] == Separator
  {
    if |p| > 0 && p[0] == Separator then 1 else 0
  }

  /** Scanning `p[..i]` backwards from index `i`, past trailing separators
      (`seenPart` false) and then past the last part (`seenPart` true): the
      index where that last part begins, or 0 when no separator at or after
      `start` precedes it. The part always begins just after a separator. */
  function PartStart(p: Path, start: nat, i: nat, seenPart: bool): (k: nat)
    requires i <= |p|
    ensures k <= i
    ensures k == 0 || (start < k && p[k - 1] == Separator)
    decreases i
  {
    if i <= start then 0
    else if p[i - 1] == Separator then
      if seenPart then i else PartStart(p, start, i - 1, false)
    else PartStart(p, start, i - 1, true)
  }

  /** `path.parse(p).dir` of POSIX Node: trailing separators are ignored, the
      folder is everything before the separator that precedes the last part,
      and a path whose only such separator is its root has the root `/` as
      its folder. */
  function Parent(p: Path): (d: Path)
    ensures d == [Separator] || (|d| < |p| && d == p[..|d|] && p[|d|] == Separator) || d == ""
    ensures Separator !in p ==> d == ""
    ensures d == "" ==> |p| == 0 || p[0] != Separator
  {
    if |p| == 0 then ""
    else
      var k := PartStart(p, RootLength(p), |p|, false);
      if k > 0 then p[..k - 1]
      else if p[0] == Separator then [Separator]
      else ""
  }

  /** `PartStart` reads nothing of its path beyond index `i`. */
  lemma {:induction false} PartStartPrefix(p: Path, q: Path, start: nat, i: nat, seenPart: bool)
    requires i <= |p| && i <= |q| && p[..i] == q[..i]
    ensures PartStart(p, start, i, seenPart) == PartStart(q, start, i, seenPart)
    decreases i
  {
    if i > start {
      assert p[i - 1] == p[..i][i - 1] == q[..i][i - 1] == q[i - 1];
      assert p[..i - 1] == p[..i][..i - 1] == q[..i][..i - 1] == q[..i - 1];
      PartStartPrefix(p, q, start, i - 1, false);
      PartStartPrefix(p, q, start, i - 1, true);
    }
  }

  /** A trailing separator does not change the folder of a path. */
  lemma ParentIgnoresTrailingSeparator(p: Path)
    requires p != ""
    ensures Parent(p + [Separator]) == Parent(p)
  {
    var q := p + [Separator];
    assert q[0] == p[0];
    assert RootLength(q) == RootLength(p);
    assert q[..|p|] == p[..|p|];
    PartStartPrefix(q, p, RootLength(p), |p|, false);
    assert PartStart(q, RootLength(p), |q|, false) == PartStart(p, RootLength(p), |p|, false);
  }

  /** Scanning backwards through a last part that starts after index `n`,
      which holds a separator, stops just after `n`. */
  lemma {:induction false} PartStartOverName(p: Path, start: nat, n: nat, i: nat)
    requires start <= n < |p| && p[n] == Separator
    requires n + 1 <= i <= |p|
    requires forall j :: n < j < |p| ==> p[j] != Separator
    ensures PartStart(p, start, i, true) == n + 1
    decreases i
  {
    if i > n + 1 {
      PartStartOverName(p, start, n, i - 1);
    }
  }

  /** The folder `mkdirp` creates for a copy target is the folder the target
      was joined onto, whenever the relative target is one non-empty part. */
  lemma ParentOfJoin(base: Path, rel: Path)
    requires base != "" && rel != "" && Separator !in rel
    ensures Parent(Join(base, rel)) == base
  {
    var p := Join(base, rel);
    var n := |base|;
    assert p[n] == Separator;
    assert forall j :: n < j < |p| ==> p[j] == rel[j - n - 1];
    assert p[|p| - 1] != Separator;
    PartStartOverName(p, RootLength(p), n, |p| - 1);
    assert p[..n] == base;
  }

  /** The two cases where the folder is not the text before the last
      separator: a trailing separator, and a part directly under the root. */
  lemma ParentExamples()
    ensures Parent("d/c/") == "d"
    ensures Parent("/a") == "/"
    ensures Parent("a") == ""
  {
    assert PartStart("d/c/", 0, 4, false) == 2;
    assert PartStart("/a", 1, 2, false) == 0;
  }
}

=== FILE: steps.dfy ===
/** What one build step observes and leaves behind: child processes as
    oracle outcomes, the effects a step attempts in order, and the errors the
    build throws. */
module Steps {
  import opened Wrappers
  import opened Paths
  import opened FileSystem
  import Decimal

  /** The two places where `spawnSync` is called. */
  datatype Phase = Compiler | Installer

  /** The executable, its arguments and the working folder of a `spawnSync` call. */
  datatype Invocation = Invocation(command: string, args: seq<string>, cwd: Path)

  /** What `spawnSync` reports: the process could not be started (`error` is
      set), or it ran and ended with `status` (`null`, here `None`, when a
      signal ended it) after writing some files. */
  datatype Process =
    | LaunchFailed(code: ErrorCode)
    | Exited(status: Option<int>, writes: map<Path, string>)

  /** One side effect the build attempts, in the order it attempts them. */
  datatype Effect =
    | MakeDir(path: Path)
    | Spawn(phase: Phase, inv: Invocation)
    | MakeParents(path: Path)
    | Copy(from: Path, to: Path)
    | Write(path: Path)

  /** What the build throws: an error passed on unchanged (a file-system
      error or a launch error), or the error it raises for a non-zero status. */
  datatype BuildError = Thrown(code: ErrorCode) | StatusError(status: Option<int>)

  datatype Outcome = Pass | Fail(error: BuildError)

  /** A file map, the effects attempted on the way to it, and how it ended. */
  datatype Step = Step(fs: FileMap, trace: seq<Effect>, outcome: Outcome)

  const StatusPrefix: string := "TypeScript compiler error: "

  /** `'TypeScript compiler error: ' + status`: the fixed prefix, then
      `null` for a missing status or the status in decimal. */
  function StatusMessage(status: Option<int>): (m: string)
    ensures |StatusPrefix| < |m| && m[..|StatusPrefix|] == StatusPrefix
    ensures status.None? <==> m[|StatusPrefix|..] == "null"
  {
    StatusPrefix + match status
      case None => "null"
      case Some(n) => Decimal.IntToDecimal(n)
  }

  /** The raised message names the status: two statuses give the same message
      only when they are the same status. */
  lemma StatusMessageIdentifiesStatus(a: Option<int>, b: Option<int>)
    ensures StatusMessage(a) == StatusMessage(b) <==> a == b
  {
    if StatusMessage(a) == StatusMessage(b) {
      assert StatusMessage(a)[|StatusPrefix|..] == StatusMessage(b)[|StatusPrefix|..];
      if a.Some? && b.Some? {
        Decimal.IntToDecimalInjective(a.value, b.value);
      }
    }
  }

  /** The error a process outcome turns into, if any: a launch error is thrown
      on as it is, and any status other than 0 raises a status error. */
  function ProcessOutcome(p: Process): (o: Outcome)
    ensures o.Pass? <==> p.Exited? && p.status == Some(0)
    ensures p.LaunchFailed? ==> o == Fail(Thrown(p.code))
    ensures p.Exited? && o.Fail? ==> o.error == StatusError(p.status)
  {
    match p
    case LaunchFailed(c) => Fail(Thrown(c))
    case Exited(s, _) => if s == Some(0) then Pass else Fail(StatusError(s))
  }

  /** One blocking `spawnSync` call followed by the checks of `error` and `status`. */
  function RunProcess(fs: FileMap, phase: Phase, inv: Invocation, p: Process): (s: Step)
    ensures s.trace == [Spawn(phase, inv)]
    ensures s.outcome == ProcessOutcome(p)
    ensures s.fs == if p.Exited? then ApplyWrites(fs, p.writes) else fs
    ensures CountLaunches(s.trace, phase) == 1
    ensures forall other: Phase :: other != phase ==> CountLaunches(s.trace, other) == 0
    ensures p.Exited? ==> forall q :: q in p.writes ==> Lookup(s.fs, q) == Some(p.writes[q])
    ensures forall q :: !(p.Exited? && q in p.writes) ==> Lookup(s.fs, q) == Lookup(fs, q)
  {
    assert [Spawn(phase, inv)][1..] == [];
    match p
    case LaunchFailed(_) => Step(fs, [Spawn(phase, inv)], ProcessOutcome(p))
    case Exited(_, w) => Step(ApplyWrites(fs, w), [Spawn(phase, inv)], ProcessOutcome(p))
  }

  /** A compiler failure and an installer failure with the same status raise
      the same error: the message does not say which process failed. */
  lemma InstallerFailureReadsAsCompilerFailure(fs: FileMap, compile: Invocation, install: Invocation, p: Process)
    requires p.Exited? && p.status != Some(0)
    ensures RunProcess(fs, Installer, install, p).outcome == RunProcess(fs, Compiler, compile, p).outcome
    ensures RunProcess(fs, Installer, install, p).outcome.error.StatusError?
  {
  }

  /** How many launches of `phase` a trace holds. */
  function CountLaunches(t: seq<Effect>, phase: Phase): nat {
    if t == [] then 0
    else (if t[0].Spawn? && t[0].phase == phase then 1 else 0) + CountLaunches(t[1..], phase)
  }

  /** A trace without any process launch. */
  predicate NoLaunches(t: seq<Effect>) {
    forall i :: 0 <= i < |t| ==> !t[i].Spawn?
  }

  lemma {:induction false} CountLaunchesAppend(a: seq<Effect>, b: seq<Effect>, phase: Phase)
    ensures CountLaunches(a + b, phase) == CountLaunches(a, phase) + CountLaunches(b, phase)
  {
    if a != [] {
      assert (a + b)[1..] == a[1..] + b;
      CountLaunchesAppend(a[1..], b, phase);
    } else {
      assert a + b == b;
    }
  }

  lemma {:induction false} NoLaunchesCountZero(t: seq<Effect>, phase: Phase)
    requires NoLaunches(t)
    ensures CountLaunches(t, phase) == 0
  {
    if t != [] {
      NoLaunchesCountZero(t[1..], phase);
    }
  }
}

=== FILE: wrappers.dfy ===
/** The two failure-compatible wrappers the model uses: `Option` for values that
    JavaScript writes as `null`, and `Result` for calls that may throw. */
module Wrappers {

  /** A value that may be missing; `None` stands for JavaScript's `null`. */
  datatype Option<+T> = None | Some(value: T)

  /** The outcome of a call that either returns a value or throws an error. */
  datatype Result<+T, +E> = Ok(value: T) | Err(error: E) {

    predicate IsFailure() {
      Err?
    }

    function PropagateFailure<U>(): Result<U, E>
      requires Err?
    {
      Err(error)
    }

    function Extract(): T
      requires Ok?
    {
      value
    }
  }
}
